=== FILE: README.md ===
# upnp-cli in Dafny

A model of `upnp`, a small command-line tool. It finds the network's UPnP
Internet Gateway Device, then shows the external address, forwards a port,
clears a forwarded port, or keeps a port forwarded until the process gets a
termination signal. Everything is modelled as pure functions over immutable
values.

- `types.dfy` (`Types`): ports (16-bit), IPv4 addresses (32 bits), `Option`,
  `Result`, the error kinds, and the outcome of a mapping operation.
- `router.dfy` (`Router`): `PickRouterClient`. The three discovery tasks
  (WANIPConnection v1, v2, WANPPPConnection v1) are joined. The join fails
  with the error of the first task to fail, in a completion order that is a
  parameter. Then the first variant, in the order v2, v1, PPP, that found
  exactly one device is selected.
- `local_ip.dfy` (`LocalIp`): the router client handle (`CreateRouterClient`)
  and `GetLocalIP`. The router's control host must be an IP literal. The
  host's interfaces are scanned in order for the first address whose network
  contains it, comparing the bits the network's mask keeps. Listing errors
  abort the scan. The scan is given twice: as a recursive function and as
  the nested loops the source writes.
- `mapping.dfy` (`Mapping`): `Forward` and `Clear`. The gateway is an oracle
  that answers each request given the whole request history. Both operations
  are shown to be the generic fail-fast sequence (TCP, then UDP, no
  rollback). On a gateway that behaves as the service describes, a
  successful clear undoes a successful forward.
- `decimal.dfy` (`Decimal`): parsing the port argument the way
  `strconv.ParseUint(s, 10, 16)` does, and the canonical rendering it
  inverts.
- `words.dfy` (`Words`): joining the description words with single spaces,
  and splitting them back.
- `cli.dfy` (`Cli`): `main`. Given the arguments and the world, the program
  produces a trace of events: reports, discovery, requests to the gateway
  behind a connection, the wait for a signal, and a crash. The world gives
  each connection its own gateway, so every request names the connection it
  goes to. `Main` is the program as written; `MainCorrected` is the same
  program with the defect under "## Findings" repaired.

Three behaviours of the code that a reader might not expect, kept as
written:

- Selection: a variant that found two or more devices does not stop the
  search. The next variant is still tried (`Router.Select`).
- Local address cache: `CreateRouterClient` starts the cache empty, and
  nothing ever stores into it. Each `Forward` therefore lists the interfaces
  again (`LocalIp.FreshHandleAlwaysResolves`).
- One-shot `forward` and `clear` report success whatever the operation
  returned. In keep mode, the error of the final `Clear` is ignored and
  success is reported. None of these errors is shown to the user.

## Model

| member | source | states |
|---|---|---|
| Router.FirstFailure | util.go:110-133 | No failure exactly when every task, in completion order, found its devices. Otherwise the result is the reason of a failed task with only successful tasks before it. |
| Router.WaitTasks | util.go:110-133 | The join succeeds exactly when all three tasks succeed, and then yields every variant's device list. A failed join carries the discovery error of some failed task. |
| Router.Select | util.go:138-147 | A unique v2 device wins. Otherwise a unique v1 device wins, otherwise a unique PPP device. Two or more devices of one variant fall through to the next variant. The selection fails with "no unique service" exactly when no variant found exactly one device. |
| Router.SelectIsFirstSingleton | util.go:138-147 | The selection switch equals the reference policy "first list of length one" applied to the ranking v2, v1, PPP, in both success and choice. |
| Router.SelectDependsOnCounts | util.go:138-147 | Whether selection succeeds, and which variant it picks, depends only on how many devices each variant found. |
| Router.PickRouterClient | util.go:109-148 | Any failed discovery task makes the pick fail with the discovery error of some failed task. When all tasks succeed, the pick is the selection over their lists. |
| LocalIp.CreateRouterClient | util.go:39-44 | A new handle wraps the selected connection, with an empty local-address cache. |
| LocalIp.ContainsIffSamePrefix | util.go:68 | An IPv4 network contains an address exactly when the two agree on the network's leading prefix bits, the bits its mask keeps. So a /0 network contains every address and a /32 network only its own. IPv6 networks and other addresses contain nothing. |
| LocalIp.ScanAddrs | util.go:67-71 | No result exactly when no address of the interface contains the router's address. Otherwise the result is the own address of the first address that does. |
| LocalIp.Scan | util.go:61-74 | The scan fails only with a listing error or with "could not determine the local address". An address it finds is the own address of a network, on a listed interface, that contains the router's address. |
| LocalIp.ScanFindsFirstMatch | util.go:61-72 | The scan yields an address exactly when it is the own address of the first containing network on the first interface with a match, every earlier interface being listed and having no match. |
| LocalIp.ScanStopsAtListingError | util.go:61-66 | The scan fails with an interface's listing error exactly when every interface before it was listed without a match. |
| LocalIp.ScanFindsNothing | util.go:61-74 | The scan ends with "could not determine the local address" exactly when every interface was listed and none matched. It fails in no other way than that or a listing error. |
| LocalIp.ScanInterfaces | util.go:61-74 | The nested loops over interfaces and their addresses compute the same result as the scan. |
| LocalIp.GetLocalIp | util.go:46-75 | A filled cache is returned as is. Otherwise the following hold: a control host that is not an IP literal fails; a failed interface listing fails with its error; a found address is the first match over the interfaces. |
| LocalIp.FreshHandleAlwaysResolves | util.go:39-49 | On a new handle, resolving the local address always scans the interfaces again, because the cache stays empty. |
| Mapping.FailFast | util.go:77-107 | Reference fail-fast run. It issues a prefix of the requests. It passes exactly when it issued all of them and each was answered. A failure is the fault of the last request issued, every earlier one having been answered. |
| Mapping.Forward | util.go:77-93 | A local-address error fails with that error and issues nothing. Otherwise it issues one or two AddPortMapping requests, TCP first then UDP. Each has an empty remote host, external port = internal port = the port, the local address as client, enabled, the description, and lease 0. It passes exactly when both were issued and answered. A single request means TCP faulted. |
| Mapping.Clear | util.go:95-107 | Issues one or two DeletePortMapping requests for the port with an empty remote host, TCP first then UDP. It passes exactly when both were answered. A single request means TCP faulted. |
| Mapping.ForwardIsFailFast | util.go:77-93 | Once the local address is known, Forward is the fail-fast run of the TCP and the UDP mapping. |
| Mapping.ClearIsFailFast | util.go:95-107 | Clear is the fail-fast run of the TCP and the UDP unmapping. |
| Mapping.ClearUndoesForward | util.go:77-107 | Take a port that is not mapped. A successful Forward followed by a successful Clear of that port leaves the gateway's mapping table as it was. |
| Mapping.ForwardLeavesTcpOnUdpFault | util.go:83-91 | When UDP is refused after TCP was accepted, the TCP mapping stays (no rollback). Forward never issues a delete. |
| Decimal.ParsePort | main.go:46-50 | An accepted port argument is the port's canonical decimal rendering, behind zero or more zeros. |
| Decimal.ParseRender | main.go:46-50 | The decimal rendering of a number parses back to that number exactly when it is below 65536. Otherwise it is refused. |
| Decimal.ParseZerosRender | main.go:46-50 | A canonical rendering behind any number of zeros parses back to its number when that is below 65536, and is refused otherwise. |
| Decimal.ParsePortExactly | main.go:46-50 | An argument parses to port n exactly when n is below 65536 and the argument is n's canonical rendering behind some zeros. |
| Decimal.ParseIgnoresLeadingZero | main.go:46-50 | A leading zero changes neither whether a port argument parses nor its value. |
| Words.Join | main.go:52-54 | The empty list joins to the empty string and a single word to itself. A nonempty join starts with the first word. For words without spaces, it contains a space exactly when there are two or more words. |
| Words.JoinAppend | main.go:53 | Joining two nonempty word lists is joining each and putting one space between them. With the empty-list and single-word cases of `Words.Join` this fixes the join of every list, words with spaces included. |
| Words.SplitJoin | main.go:51-54 | Words without spaces are recovered by splitting their space-joined description. |
| Cli.ParseCommand | main.go:32-71 | Each alias names its command, and a recognised word is an alias of the command it names. |
| Cli.Description | main.go:51-54 | With no words after the port, the description is "upnp-cli". Otherwise it is the join of those words with single spaces, and it splits back into them when they have no spaces. |
| Cli.Main | main.go:13-103 | With no command word, or the word "help", the run is the usage message alone, without discovery; otherwise discovery comes first. Every request goes to the gateway of the router that was picked, and a failed pick issues none. The program crashes exactly on `clear` without a port once a router was found. |
| Cli.MainCorrected | main.go:13-103 | The same program with the clear command corrected: the same usage-only runs, discovery and request targets, and it never crashes. |
| Cli.MainCorrectedOnlyFixesClear | main.go:58-62 | The program as written and the corrected one produce the same trace exactly when the run is not `clear` without a port after a router was found. |
| Cli.NoRouterEndsRun | main.go:23-29 | A failed discovery is reported and nothing else happens. |
| Cli.UnknownCommandDoesNothing | main.go:32-103 | A word that names no command still discovers the router, then issues no request and reports nothing. |
| Cli.MissingPortIssuesNothing | main.go:41-75 | forward and keep without a port print their usage, issue no request, and end the run. |
| Cli.BadPortIssuesNothing | main.go:41-80 | A port argument that is not a 16-bit decimal number is reported, and no request is issued. |
| Cli.ExternalIpAsksOnce | main.go:33-40 | In a run, the external-IP command issues exactly one GetExternalIPAddress, to the picked router's gateway, and reports its answer or its fault last. |
| Cli.ExternalIpCommand | main.go:33-40 | The command's only request is one GetExternalIPAddress to the router's gateway. It ends with the reported address when the gateway answers, and with the fault when it refuses. |
| Cli.ForwardCommand | main.go:41-57 | Without a port, or with one that does not parse, nothing is requested. Otherwise the requests are exactly those of one `Forward` of the parsed port and description on the router's gateway, and the command ends by reporting success. |
| Cli.ForwardAlwaysReportsSuccess | main.go:41-57 | In a run, one-shot forward issues exactly the requests of one `Forward` with the parsed port and description, on the picked router. It ends by reporting success, even when `Forward` failed. |
| Cli.ClearAlwaysReportsSuccess | main.go:58-69 | In a run, clear with a port issues exactly the requests of one `Clear` of the parsed port on the picked router's gateway. It ends by reporting success, even when `Clear` failed. |
| Cli.KeepStopsWhenForwardFails | main.go:85-89 | When Forward fails, the keep command issues exactly the forward's requests and reports the failure last. It does not wait and issues no delete. |
| Cli.SignalTail | main.go:92-102 | With no signal, nothing follows the wait. With a signal, the only requests are those of one `Clear` of the same port, to the same router's gateway, and the run ends by reporting the port cleared and exiting, whatever that `Clear` returned. |
| Cli.KeepWaitsAfterForwarding | main.go:85-97 | When Forward succeeds, the keep command has issued exactly the forward's requests before it waits for the signal. |
| Cli.KeepClearsOnceAfterSignal | main.go:90-102 | When Forward succeeds, the keep command waits for the signal, and never a second time. With no signal nothing follows the wait. With a signal, the only requests after the wait are those of one Clear of the same port. |
| Cli.ClearWithoutPortCrashes | main.go:58-62 | `clear` without a port, once a router was found, prints the clear usage and then crashes as written. The corrected program prints the usage and stops. |
| Cli.ClearCommand | main.go:58-69 | The corrected clear command never crashes and never waits. Without a port, or with one that does not parse, nothing is requested. Otherwise the requests are exactly those of one `Clear` of the port on the router's gateway, and success is reported last. |
| Cli.ClearCommandAsWritten | main.go:58-69 | The clear command as written crashes exactly when the port argument is missing, after printing its usage and without a request. With the argument it behaves as the corrected command. |

## Left out

- Concurrency of discovery: the three tasks run in parallel in the source. The model gives their completion order as a parameter and keeps only the first error. Cancellation of the shared context is not modelled, because nothing observes it.
- SSDP discovery and the SOAP calls of the goupnp library: discovery results and gateway answers are inputs (`Probe`, and a `Gateway` oracle per connection). `GetServiceClient` is reduced to the device's control host. `GetSpecificPortMappingEntry` is never called by the program.
- `net.SplitHostPort`/`net.ParseIP`: only their result is modelled, as `controlHost`, an IPv4 address or nothing. A router whose control host is an IPv6 literal counts as "no address", where the source would go on to scan the interfaces for an IPv6 network. IPv6 mapping is outside the tool's scope.
- `net.Interfaces` and `Addrs`: these are inputs, including their errors. Non-IP-network addresses and IPv6 networks never match an IPv4 router address. An interface network written as an IPv4-mapped IPv6 address (`::ffff:a.b.c.d/n`), which Go's `IPNet.Contains` treats as IPv4 and can match, is not modelled; it counts as an IPv6 network. The textual form of the found address (`IP.String()`) is kept as the address's 32 bits.
- Output wording: messages are constructors of `Message`. The progress lines that `Forward` and `Clear` print are not modelled. The "waiting for a close signal" line is folded into the wait event.
- Signal handling: registering for SIGTERM, SIGINT and SIGQUIT becomes the boolean `signal`. If it is false, the wait never ends and the trace stops there.
- `strconv.ParseUint` error texts: a refused port argument is reported as one `BadPort` message.
- Cli.KeepCommand, Cli.Dispatch, Cli.RunCommand: their own contracts state only where requests go, when a crash happens, and that keep without a usable port requests nothing. What keep does after a parsed port is stated by the `Cli` keep lemmas above.

## Findings

| source | as written | input that shows it | evidently intended | confidence | as-written member | corrected member |
|---|---|---|---|---|---|---|
| main.go:59-62 | When `clear` has no port argument, the usage is printed without a `return`. The program then reads `os.Args[2]`, which is out of range and crashes. | `upnp clear` | Print the usage and stop, as `forward` and `keep` do. | high, not executed | Cli.Main | Cli.MainCorrected |

=== FILE: cli.dfy ===
/** The command-line program (`main`): the argument list, together with what
    the world does (discovery, the interfaces, the gateway's answers, and
    whether a termination signal ever arrives), determines the trace of
    what the program reports and requests. */
module Cli {
  import opened Types
  import opened Router
  import opened LocalIp
  import opened Decimal
  import opened Words
  import Mapping

  datatype Command = ShowExternalIp | ForwardPort | ClearPort | KeepPort

  /** The words that name each command. */
  function Aliases(c: Command): set<string>
  {
    match c
    case ShowExternalIp => {"external-ip", "eip", "ip"}
    case ForwardPort => {"forward", "f"}
    case ClearPort => {"clear", "c", "unforward", "uf"}
    case KeepPort => {"keep", "k"}
  }

  /** The command a word names, if any: each word names at most one. */
  function ParseCommand(word: string): (r: Option<Command>)
    ensures r.Some? ==> word in Aliases(r.value)
    ensures forall c :: word in Aliases(c) ==> r == Some(c)
  {
    if word == "external-ip" || word == "eip" || word == "ip" then Some(ShowExternalIp)
    else if word == "forward" || word == "f" then Some(ForwardPort)
    else if word == "clear" || word == "c" || word == "unforward" || word == "uf" then Some(ClearPort)
    else if word == "keep" || word == "k" then Some(KeepPort)
    else None
  }

  /** What the program reports to the user; the wording is not modelled. */
  datatype Message =
    | Usage
    | NoRouter(error: Error)
    | ExternalIpIs(address: string)
    | ExternalIpFailed(error: Error)
    | CommandUsage(command: Command)
    | BadPort
    | ForwardedPort(port: Port)
    | ForwardFailed(error: Error)
    | ClearingPort(port: Port)
    | ClearedPort(port: Port)
    | Exiting


  /** One step of a run: a report, the discovery of the router, a request to
      the gateway behind a connection, the wait for a termination signal, or
      a crash. */
  datatype Event = Say(message: Message) | Discover | Request(target: Conn, call: Mapping.Call) | AwaitSignal | Panic

  /** Everything outside the program: how discovery went (and in which order
      its tasks finished), the host's interfaces, how the gateway behind each
      connection answers, and whether a termination signal arrives while the
      program waits for one. */
  datatype World = World(probe: Probe, order: seq<Variant>, net: Interfaces, gateway: Conn -> Mapping.Gateway, signal: bool)

  const DefaultDescription: string := "upnp-cli"

  /** The mapping description: the words after the port, joined by single
      spaces, or the default when there are none. */
  function Description(args: seq<string>): (d: string)
    ensures |args| <= 3 ==> d == DefaultDescription
    ensures |args| > 3 ==> d == Join(args[3..])
    ensures |args| > 3 && NoSpaces(args[3..]) ==> Split(d) == args[3..]
  {
    if |args| > 3 then
      if NoSpaces(args[3..]) then SplitJoin(args[3..]); Join(args[3..])
      else Join(args[3..])
    else DefaultDescription
  }

  /** The requests of a trace, in order. */
  function Calls(trace: seq<Event>): seq<Mapping.Call>
    decreases |trace|
  {
    if |trace| == 0 then []
    else (if trace[0].Request? then [trace[0].call] else []) + Calls(trace[1..])
  }

  /** Every request of a trace goes to the gateway behind `conn`. */
  predicate SentTo(trace: seq<Event>, conn: Conn)
  {
    forall e :: e in trace && e.Request? ==> e.target == conn
  }

  lemma {:induction false} CallsAppend(a: seq<Event>, b: seq<Event>)
    ensures Calls(a + b) == Calls(a) + Calls(b)
    decreases |a|
  {
    if |a| == 0 {
      assert a + b == b;
    } else {
      var head := if a[0].Request? then [a[0].call] else [];
      assert (a + b)[0] == a[0];
      assert (a + b)[1..] == a[1..] + b;
      calc {
        Calls(a + b);
        head + Calls(a[1..] + b);
        { CallsAppend(a[1..], b); }
        head + (Calls(a[1..]) + Calls(b));
        (head + Calls(a[1..])) + Calls(b);
        Calls(a) + Calls(b);
      }
    }
  }

  /** A trace without requests has no calls. */
  lemma {:induction false} CallsOfNoRequests(t: seq<Event>)
    requires forall e :: e in t ==> !e.Request?
    ensures Calls(t) == []
    decreases |t|
  {
    if |t| > 0 {
      assert t[0] in t;
      assert forall e :: e in t[1..] ==> e in t;
      CallsOfNoRequests(t[1..]);
    }
  }

  /** Discovery adds no calls in front of a command's. */
  lemma CallsAfterDiscover(t: seq<Event>)
    ensures Calls([Discover] + t) == Calls(t)
  {
    assert ([Discover] + t)[1..] == t;
  }

  /** The requests an operation issued to the gateway behind `conn`, as
      trace events. */
  function Requests(conn: Conn, calls: seq<Mapping.Call>): (t: seq<Event>)
    ensures forall e :: e in t ==> e.Request? && e.target == conn
    ensures Calls(t) == calls
    decreases |calls|
  {
    if |calls| == 0 then []
    else
      var t := [Request(conn, calls[0])] + Requests(conn, calls[1..]);
      assert t[1..] == Requests(conn, calls[1..]);
      t
  }

  /** Requests to `conn` followed by one report. */
  function RequestsThenSay(conn: Conn, calls: seq<Mapping.Call>, m: Message): (t: seq<Event>)
    ensures Discover !in t && Panic !in t && AwaitSignal !in t
    ensures SentTo(t, conn) && Calls(t) == calls
    ensures |t| > 0 && t[|t| - 1] == Say(m)
  {
    CallsAppend(Requests(conn, calls), [Say(m)]);
    CallsOfNoRequests([Say(m)]);
    Requests(conn, calls) + [Say(m)]
  }

  /** The external address command: one request, and its answer or its
      fault reported. */
  function ExternalIpCommand(router: RouterClient, w: World): (t: seq<Event>)
    ensures Discover !in t && Panic !in t && AwaitSignal !in t
    ensures SentTo(t, router.conn)
    ensures Calls(t) == [Mapping.GetExternalIPAddress]
    ensures var reply := w.gateway(router.conn)([Mapping.GetExternalIPAddress]);
      && (reply.Answer? ==> t[|t| - 1] == Say(ExternalIpIs(reply.output)))
      && (reply.Fault? ==> t[|t| - 1] == Say(ExternalIpFailed(RemoteFault(reply.reason))))
  {
    var q := Mapping.GetExternalIPAddress;
    var m := match w.gateway(router.conn)([q])
      case Answer(address) => ExternalIpIs(address)
      case Fault(reason) => ExternalIpFailed(RemoteFault(reason));
    RequestsThenSay(router.conn, [q], m)
  }

  /** The `Forward` of forward and keep: the parsed port, the description,
      on the gateway behind the router's connection. */
  function ForwardRun(args: seq<string>, router: RouterClient, w: World): Mapping.Op
    requires |args| > 2 && ParsePort(args[2]).Some?
  {
    Mapping.Forward(router, ParsePort(args[2]).value, Description(args), w.net, w.gateway(router.conn), [])
  }

  /** One-shot forward: success is reported whatever `Forward` returned. */
  function ForwardCommand(args: seq<string>, router: RouterClient, w: World): (t: seq<Event>)
    ensures Discover !in t && Panic !in t && AwaitSignal !in t
    ensures SentTo(t, router.conn)
    ensures |args| <= 2 || ParsePort(args[2]).None? ==> Calls(t) == []
    ensures |args| > 2 && ParsePort(args[2]).Some? ==>
      && Calls(t) == ForwardRun(args, router, w).issued
      && |t| > 0 && t[|t| - 1] == Say(ForwardedPort(ParsePort(args[2]).value))
  {
    if |args| <= 2 then
      CallsOfNoRequests([Say(CommandUsage(ForwardPort))]);
      [Say(CommandUsage(ForwardPort))]
    else match ParsePort(args[2])
      case None =>
        CallsOfNoRequests([Say(BadPort)]);
        [Say(BadPort)]
      case Some(port) =>
        RequestsThenSay(router.conn, ForwardRun(args, router, w).issued, ForwardedPort(port))
  }

  /** The clear command once its port argument is present: success is
      reported whatever `Clear` returned. */
  function ClearPortArg(arg: string, router: RouterClient, w: World): (t: seq<Event>)
    ensures Discover !in t && Panic !in t && AwaitSignal !in t
    ensures SentTo(t, router.conn)
    ensures ParsePort(arg).None? ==> Calls(t) == []
    ensures ParsePort(arg).Some? ==>
      && Calls(t) == Mapping.Clear(ParsePort(arg).value, w.gateway(router.conn), []).issued
      && t[|t| - 1] == Say(ClearedPort(ParsePort(arg).value))
  {
    match ParsePort(arg)
    case None =>
      CallsOfNoRequests([Say(BadPort)]);
      [Say(BadPort)]
    case Some(port) =>
      RequestsThenSay(router.conn, Mapping.Clear(port, w.gateway(router.conn), []).issued, ClearedPort(port))
  }

  /** The clear command as evidently intended: without a port argument it
      prints its usage and stops, like forward and keep do. */
  function ClearCommand(args: seq<string>, router: RouterClient, w: World): (t: seq<Event>)
    ensures Discover !in t && Panic !in t && AwaitSignal !in t
    ensures SentTo(t, router.conn)
    ensures |args| <= 2 || ParsePort(args[2]).None? ==> Calls(t) == []
    ensures |args| > 2 && ParsePort(args[2]).Some? ==>
      && Calls(t) == Mapping.Clear(ParsePort(args[2]).value, w.gateway(router.conn), []).issued
      && t[|t| - 1] == Say(ClearedPort(ParsePort(args[2]).value))
  {
    if |args| <= 2 then
      CallsOfNoRequests([Say(CommandUsage(ClearPort))]);
      [Say(CommandUsage(ClearPort))]
    else ClearPortArg(args[2], router, w)
  }

  /** The clear command as the source writes it: without a port argument it
      prints its usage and then still reads the missing argument, which
      crashes the program. With the argument it is the corrected command. */
  function ClearCommandAsWritten(args: seq<string>, router: RouterClient, w: World): (t: seq<Event>)
    ensures Discover !in t && AwaitSignal !in t
    ensures SentTo(t, router.conn)
    ensures Panic in t <==> |args| <= 2
    ensures |args| <= 2 ==> Calls(t) == [] && t[0] == Say(CommandUsage(ClearPort))
    ensures |args| > 2 ==> t == ClearCommand(args, router, w)
  {
    if |args| <= 2 then
      CallsOfNoRequests([Say(CommandUsage(ClearPort)), Panic]);
      [Say(CommandUsage(ClearPort)), Panic]
    else ClearPortArg(args[2], router, w)
  }

  /** Keep: forward, and only if that succeeded wait for the signal and
      then clear the same port once. The outcome of that clear is not
      looked at. */
  function KeepCommand(args: seq<string>, router: RouterClient, w: World): (t: seq<Event>)
    ensures Discover !in t && Panic !in t
    ensures SentTo(t, router.conn)
    ensures |args| <= 2 || ParsePort(args[2]).None? ==> Calls(t) == [] && AwaitSignal !in t
  {
    if |args| <= 2 then
      CallsOfNoRequests([Say(CommandUsage(KeepPort))]);
      [Say(CommandUsage(KeepPort))]
    else match ParsePort(args[2])
      case None =>
        CallsOfNoRequests([Say(BadPort)]);
        [Say(BadPort)]
      case Some(port) =>
        var f := ForwardRun(args, router, w);
        if f.outcome.Fail? then Requests(router.conn, f.issued) + [Say(ForwardFailed(f.outcome.error))]
        else Requests(router.conn, f.issued) + [Say(ForwardedPort(port)), AwaitSignal] + SignalTail(port, router, w, f.issued)
  }

  /** What keep does after it starts waiting: nothing more if no signal
      comes; otherwise clear the port on the same gateway and exit. */
  function SignalTail(port: Port, router: RouterClient, w: World, past: seq<Mapping.Call>): (t: seq<Event>)
    ensures Discover !in t && Panic !in t && AwaitSignal !in t
    ensures SentTo(t, router.conn)
    ensures !w.signal ==> t == []
    ensures w.signal ==> Calls(t) == Mapping.Clear(port, w.gateway(router.conn), past).issued
    ensures w.signal ==> |t| >= 2 && t[|t| - 2..] == [Say(ClearedPort(port)), Say(Exiting)]
  {
    if !w.signal then []
    else
      var c := Mapping.Clear(port, w.gateway(router.conn), past);
      var cleared := RequestsThenSay(router.conn, c.issued, ClearedPort(port));
      CallsAppend([Say(ClearingPort(port))], cleared);
      CallsAppend([Say(ClearingPort(port))] + cleared, [Say(Exiting)]);
      CallsOfNoRequests([Say(ClearingPort(port))]);
      CallsOfNoRequests([Say(Exiting)]);
      [Say(ClearingPort(port))] + cleared + [Say(Exiting)]
  }

  /** The command switch, on a fresh handle for the picked router. Clear
      runs as written, or corrected when `corrected` holds. */
  function RunCommand(c: Command, args: seq<string>, router: RouterClient, w: World, corrected: bool): (t: seq<Event>)
    ensures Discover !in t
    ensures SentTo(t, router.conn)
    ensures Panic in t <==> !corrected && c == ClearPort && |args| <= 2
  {
    match c
    case ShowExternalIp => ExternalIpCommand(router, w)
    case ForwardPort => ForwardCommand(args, router, w)
    case ClearPort => if corrected then ClearCommand(args, router, w) else ClearCommandAsWritten(args, router, w)
    case KeepPort => KeepCommand(args, router, w)
  }

  /** Everything after the usage check: discovery, then the command switch.
      A word that names no command does nothing. Every request goes to the
      picked router. */
  function Dispatch(args: seq<string>, w: World, corrected: bool): (trace: seq<Event>)
    requires |args| >= 2 && IsCompletionOrder(w.order)
    ensures Discover !in trace
    ensures Panic in trace <==>
      !corrected && |args| == 2 && ParseCommand(args[1]) == Some(ClearPort) && PickRouterClient(w.probe, w.order).Ok?
    ensures PickRouterClient(w.probe, w.order).Ok? ==> SentTo(trace, PickRouterClient(w.probe, w.order).value)
    ensures PickRouterClient(w.probe, w.order).Err? ==> Calls(trace) == []
  {
    match PickRouterClient(w.probe, w.order)
    case Err(e) =>
      CallsOfNoRequests([Say(NoRouter(e))]);
      [Say(NoRouter(e))]
    case Ok(conn) =>
      match ParseCommand(args[1])
      case None => []
      case Some(c) => RunCommand(c, args, CreateRouterClient(conn), w, corrected)
  }

  /** The whole program as written. Usage is shown, without any discovery,
      exactly when there is no command word or it is "help"; otherwise
      discovery comes first. Every request goes to the router that was
      picked. The program crashes exactly on `clear` without a port once a
      router was found. */
  function Main(args: seq<string>, w: World): (trace: seq<Event>)
    requires IsCompletionOrder(w.order)
    ensures (|args| < 2 || args[1] == "help") <==> Discover !in trace
    ensures (|args| < 2 || args[1] == "help") ==> trace == [Say(Usage)]
    ensures Discover in trace ==> trace[0] == Discover
    ensures Panic in trace <==>
      |args| == 2 && ParseCommand(args[1]) == Some(ClearPort) && PickRouterClient(w.probe, w.order).Ok?
    ensures PickRouterClient(w.probe, w.order).Ok? ==> SentTo(trace, PickRouterClient(w.probe, w.order).value)
    ensures PickRouterClient(w.probe, w.order).Err? ==> Calls(trace) == []
  {
    if |args| < 2 || args[1] == "help" then
      CallsOfNoRequests([Say(Usage)]);
      [Say(Usage)]
    else
      CallsAfterDiscover(Dispatch(args, w, false));
      [Discover] + Dispatch(args, w, false)
  }

  /** The whole program with the clear command corrected: as `Main`, but it
      never crashes. */
  function MainCorrected(args: seq<string>, w: World): (trace: seq<Event>)
    requires IsCompletionOrder(w.order)
    ensures (|args| < 2 || args[1] == "help") <==> Discover !in trace
    ensures (|args| < 2 || args[1] == "help") ==> trace == [Say(Usage)]
    ensures Discover in trace ==> trace[0] == Discover
    ensures Panic !in trace
    ensures PickRouterClient(w.probe, w.order).Ok? ==> SentTo(trace, PickRouterClient(w.probe, w.order).value)
    ensures PickRouterClient(w.probe, w.order).Err? ==> Calls(trace) == []
  {
    if |args| < 2 || args[1] == "help" then
      CallsOfNoRequests([Say(Usage)]);
      [Say(Usage)]
    else
      CallsAfterDiscover(Dispatch(args, w, true));
      [Discover] + Dispatch(args, w, true)
  }

  /** The two programs differ only on `clear` without a port. */
  lemma MainCorrectedOnlyFixesClear(args: seq<string>, w: World)
    requires IsCompletionOrder(w.order)
    ensures Main(args, w) == MainCorrected(args, w)
      <==> !(|args| == 2 && ParseCommand(args[1]) == Some(ClearPort) && PickRouterClient(w.probe, w.order).Ok?)
  {
  }

  /** The defect of the clear command as written: `clear` without a port
      crashes after printing its usage. The corrected program stops after
      the usage. */
  lemma ClearWithoutPortCrashes(args: seq<string>, w: World)
    requires IsCompletionOrder(w.order) && |args| == 2
    requires ParseCommand(args[1]) == Some(ClearPort) && PickRouterClient(w.probe, w.order).Ok?
    ensures Main(args, w) == [Discover, Say(CommandUsage(ClearPort)), Panic]
    ensures MainCorrected(args, w) == [Discover, Say(CommandUsage(ClearPort))]
  {
    assert args[1] != "help";
  }

  /** After the usage check, once a router is picked, a run is discovery
      followed by the command its word names. */
  lemma MainRunsCommand(args: seq<string>, w: World)
    requires IsCompletionOrder(w.order) && |args| >= 2 && args[1] != "help"
    requires PickRouterClient(w.probe, w.order).Ok? && ParseCommand(args[1]).Some?
    ensures var t := RunCommand(ParseCommand(args[1]).value, args,
                                CreateRouterClient(PickRouterClient(w.probe, w.order).value), w, false);
      && Main(args, w) == [Discover] + t
      && Calls(Main(args, w)) == Calls(t)
      && (|t| > 0 ==> Main(args, w)[|Main(args, w)| - 1] == t[|t| - 1])
  {
    var t := RunCommand(ParseCommand(args[1]).value, args,
                        CreateRouterClient(PickRouterClient(w.probe, w.order).value), w, false);
    CallsAfterDiscover(t);
  }

  /** A failed discovery is reported and ends the run. */
  lemma NoRouterEndsRun(args: seq<string>, w: World)
    requires IsCompletionOrder(w.order) && |args| >= 2 && args[1] != "help"
    requires PickRouterClient(w.probe, w.order).Err?
    ensures Main(args, w) == [Discover, Say(NoRouter(PickRouterClient(w.probe, w.order).error))]
  {
  }

  /** A word that names no command still searches for the router, and then
      does nothing at all. */
  lemma UnknownCommandDoesNothing(args: seq<string>, w: World)
    requires IsCompletionOrder(w.order) && |args| >= 2 && args[1] != "help"
    requires ParseCommand(args[1]).None?
    ensures Main(args, w)[0] == Discover
    ensures PickRouterClient(w.probe, w.order).Ok? ==> Main(args, w) == [Discover]
    ensures Calls(Main(args, w)) == []
  {
    CallsOfNoRequests(Main(args, w));
  }

  /** A port argument that is not a 16-bit decimal number stops forward,
      clear and keep before any request. */
  lemma BadPortIssuesNothing(args: seq<string>, w: World)
    requires IsCompletionOrder(w.order) && |args| > 2
    requires ParseCommand(args[1]) in {Some(ForwardPort), Some(ClearPort), Some(KeepPort)}
    requires ParsePort(args[2]).None?
    ensures Calls(Main(args, w)) == []
    ensures PickRouterClient(w.probe, w.order).Ok? ==> Main(args, w) == [Discover, Say(BadPort)]
  {
    assert args[1] != "help";
    CallsOfNoRequests(Main(args, w));
  }

  /** forward and keep without a port print their usage and request
      nothing. */
  lemma MissingPortIssuesNothing(args: seq<string>, w: World)
    requires IsCompletionOrder(w.order) && |args| == 2
    requires ParseCommand(args[1]) in {Some(ForwardPort), Some(KeepPort)}
    requires PickRouterClient(w.probe, w.order).Ok?
    ensures Main(args, w) == [Discover, Say(CommandUsage(ParseCommand(args[1]).value))]
    ensures Calls(Main(args, w)) == []
  {
    assert args[1] != "help";
    CallsOfNoRequests(Main(args, w));
  }

  /** The external address command asks the picked router's gateway once
      and reports its answer, or its fault. */
  lemma ExternalIpAsksOnce(args: seq<string>, w: World)
    requires IsCompletionOrder(w.order) && |args| >= 2
    requires ParseCommand(args[1]) == Some(ShowExternalIp) && PickRouterClient(w.probe, w.order).Ok?
    ensures var trace := Main(args, w);
      var reply := w.gateway(PickRouterClient(w.probe, w.order).value)([Mapping.GetExternalIPAddress]);
      && Calls(trace) == [Mapping.GetExternalIPAddress]
      && (reply.Answer? ==> trace[|trace| - 1] == Say(ExternalIpIs(reply.output)))
      && (reply.Fault? ==> trace[|trace| - 1] == Say(ExternalIpFailed(RemoteFault(reply.reason))))
  {
    MainRunsCommand(args, w);
  }

  /** Clear with a port issues exactly the requests of one `Clear` of that
      port on the picked router's gateway and then reports success, whether
      or not `Clear` failed. */
  lemma ClearAlwaysReportsSuccess(args: seq<string>, w: World)
    requires IsCompletionOrder(w.order) && |args| > 2
    requires ParseCommand(args[1]) == Some(ClearPort)
    requires ParsePort(args[2]).Some? && PickRouterClient(w.probe, w.order).Ok?
    ensures var trace := Main(args, w);
      && trace[|trace| - 1] == Say(ClearedPort(ParsePort(args[2]).value))
      && Calls(trace) == Mapping.Clear(ParsePort(args[2]).value, w.gateway(PickRouterClient(w.probe, w.order).value), []).issued
  {
    MainRunsCommand(args, w);
  }

  /** One-shot forward issues exactly the requests of one `Forward` with the
      parsed port and the description, and then reports success, whether or
      not `Forward` failed. */
  lemma ForwardAlwaysReportsSuccess(args: seq<string>, w: World)
    requires IsCompletionOrder(w.order) && |args| > 2
    requires ParseCommand(args[1]) == Some(ForwardPort)
    requires ParsePort(args[2]).Some? && PickRouterClient(w.probe, w.order).Ok?
    ensures var trace := Main(args, w);
      && trace[|trace| - 1] == Say(ForwardedPort(ParsePort(args[2]).value))
      && Calls(trace) == ForwardRun(args, CreateRouterClient(PickRouterClient(w.probe, w.order).value), w).issued
  {
    MainRunsCommand(args, w);
  }

  /** Keep, when `Forward` fails: the failure is reported, there is no wait
      and nothing is cleared. */
  lemma KeepStopsWhenForwardFails(args: seq<string>, router: RouterClient, w: World)
    requires |args| > 2 && ParsePort(args[2]).Some?
    requires ForwardRun(args, router, w).outcome.Fail?
    ensures var t := KeepCommand(args, router, w);
      var f := ForwardRun(args, router, w);
      && AwaitSignal !in t
      && Calls(t) == f.issued
      && t[|t| - 1] == Say(ForwardFailed(f.outcome.error))
      && forall c :: c in Calls(t) ==> !c.DeletePortMapping?
  {
    var f := ForwardRun(args, router, w);
    assert KeepCommand(args, router, w) == RequestsThenSay(router.conn, f.issued, ForwardFailed(f.outcome.error));
  }

  /** The part of a trace before its first wait for the signal. */
  function BeforeWait(t: seq<Event>): seq<Event>
    decreases |t|
  {
    if |t| == 0 || t[0] == AwaitSignal then [] else [t[0]] + BeforeWait(t[1..])
  }

  /** The part of a trace after its first wait for the signal. */
  function AfterWait(t: seq<Event>): seq<Event>
    decreases |t|
  {
    if |t| == 0 then [] else if t[0] == AwaitSignal then t[1..] else AfterWait(t[1..])
  }

  lemma {:induction false} SplitAtWait(before: seq<Event>, after: seq<Event>)
    requires AwaitSignal !in before
    ensures BeforeWait(before + [AwaitSignal] + after) == before
    ensures AfterWait(before + [AwaitSignal] + after) == after
    decreases |before|
  {
    var t := before + [AwaitSignal] + after;
    if |before| == 0 {
      assert t == [AwaitSignal] + after;
    } else {
      assert t[0] == before[0] && t[1..] == before[1..] + [AwaitSignal] + after;
      SplitAtWait(before[1..], after);
      assert [before[0]] + before[1..] == before;
    }
  }

  /** Keep, when `Forward` succeeds: before the wait for the signal the
      command has issued exactly the forward's requests. */
  lemma KeepWaitsAfterForwarding(args: seq<string>, router: RouterClient, w: World)
    requires |args| > 2 && ParsePort(args[2]).Some?
    requires ForwardRun(args, router, w).outcome.Pass?
    ensures Calls(BeforeWait(KeepCommand(args, router, w))) == ForwardRun(args, router, w).issued
  {
    var port := ParsePort(args[2]).value;
    var f := ForwardRun(args, router, w);
    KeepWaitsAfterForward(args, router, w);
    WaitingTrace(router.conn, f.issued, ForwardedPort(port), SignalTail(port, router, w, f.issued));
  }

  /** Keep, when `Forward` succeeds: the command waits for the signal,
      and only once; if the signal comes, the only requests after the wait
      are those of one `Clear` of the same port on the same gateway, and if
      it never comes nothing follows the wait. */
  lemma KeepClearsOnceAfterSignal(args: seq<string>, router: RouterClient, w: World)
    requires |args| > 2 && ParsePort(args[2]).Some?
    requires ForwardRun(args, router, w).outcome.Pass?
    ensures AwaitSignal in KeepCommand(args, router, w)
    ensures AwaitSignal !in AfterWait(KeepCommand(args, router, w))
    ensures w.signal ==>
      Calls(AfterWait(KeepCommand(args, router, w)))
        == Mapping.Clear(ParsePort(args[2]).value, w.gateway(router.conn), ForwardRun(args, router, w).issued).issued
    ensures !w.signal ==> AfterWait(KeepCommand(args, router, w)) == []
  {
    var port := ParsePort(args[2]).value;
    var f := ForwardRun(args, router, w);
    KeepWaitsAfterForward(args, router, w);
    WaitingTrace(router.conn, f.issued, ForwardedPort(port), SignalTail(port, router, w, f.issued));
  }

  /** Requests and a report, then the wait: what comes before and after
      the wait. */
  lemma WaitingTrace(conn: Conn, issued: seq<Mapping.Call>, m: Message, after: seq<Event>)
    ensures var t := Requests(conn, issued) + [Say(m)] + [AwaitSignal] + after;
      && AwaitSignal in t
      && Calls(BeforeWait(t)) == issued
      && AfterWait(t) == after
  {
    var before := RequestsThenSay(conn, issued, m);
    SplitAtWait(before, after);
  }

  /** Keep after a successful `Forward`: its requests and report, the wait,
      and the handling of the signal. */
  lemma KeepWaitsAfterForward(args: seq<string>, router: RouterClient, w: World)
    requires |args| > 2 && ParsePort(args[2]).Some?
    requires ForwardRun(args, router, w).outcome.Pass?
    ensures var port := ParsePort(args[2]).value;
      var f := ForwardRun(args, router, w);
      KeepCommand(args, router, w)
        == Requests(router.conn, f.issued) + [Say(ForwardedPort(port))] + [AwaitSignal] + SignalTail(port, router, w, f.issued)
  {
  }
}

=== FILE: decimal.dfy ===
/** Parsing a port argument the way `strconv.ParseUint(s, 10, 16)` does:
    a non-empty string of decimal digits (no sign, no underscores, leading
    zeros allowed) whose value fits in 16 bits. */
module Decimal {
  import opened Types

  predicate IsDigit(c: char)
  {
    '0' <= c <= '9'
  }

  predicate AllDigits(s: string)
  {
    forall i :: 0 <= i < |s| ==> IsDigit(s[i])
  }

  function DigitValue(c: char): (d: nat)
    requires IsDigit(c)
    ensures d < 10
  {
    c as int - '0' as int
  }

  function DigitChar(d: nat): (c: char)
    requires d < 10
    ensures IsDigit(c) && DigitValue(c) == d
  {
    ('0' as int + d) as char
  }

  /** The number a digit string denotes, read most significant digit first. */
  function Value(s: string): nat
    requires AllDigits(s)
    decreases |s|
  {
    if |s| == 0 then 0 else Value(s[..|s| - 1]) * 10 + DigitValue(s[|s| - 1])
  }

  /** The port a command-line argument denotes, if it is one. An accepted
      argument is the port's canonical rendering behind some zeros. */
  function ParsePort(s: string): (r: Option<Port>)
    ensures r.Some? ==> exists k: nat :: s == Zeros(k) + Render(r.value)
  {
    if |s| == 0 || !AllDigits(s) then None
    else if Value(s) < 0x1_0000 then
      ZerosThenRender(s);
      Some(Value(s))
    else None
  }

  /** `k` zero digits. */
  function Zeros(k: nat): (z: string)
    ensures |z| == k && AllDigits(z)
  {
    seq(k, _ => '0')
  }

  /** The canonical decimal rendering of a number: no leading zeros. */
  function Render(n: nat): (s: string)
    ensures |s| > 0 && AllDigits(s)
    ensures |s| > 1 ==> s[0] != '0'
    decreases n
  {
    if n < 10 then [DigitChar(n)] else Render(n / 10) + [DigitChar(n % 10)]
  }

  lemma {:induction false} ValueOfRender(n: nat)
    ensures Value(Render(n)) == n
    decreases n
  {
    if n >= 10 {
      var s := Render(n);
      assert s[..|s| - 1] == Render(n / 10);
      ValueOfRender(n / 10);
    }
  }

  /** Round trip: a number's rendering parses back to it exactly when it is
      a 16-bit value, and is refused otherwise. */
  lemma ParseRender(n: nat)
    ensures ParsePort(Render(n)) == if n < 0x1_0000 then Some(n) else None
  {
    ValueOfRender(n);
  }

  /** Leading zeros do not change the value. */
  lemma {:induction false} ValueIgnoresLeadingZero(s: string)
    requires AllDigits(s)
    ensures AllDigits("0" + s) && Value("0" + s) == Value(s)
    decreases |s|
  {
    var z := "0" + s;
    assert forall i :: 0 < i < |z| ==> z[i] == s[i - 1];
    if |s| > 0 {
      assert z[..|z| - 1] == "0" + s[..|s| - 1];
      ValueIgnoresLeadingZero(s[..|s| - 1]);
    }
  }

  /** A port written with a leading zero is the same port. */
  lemma ParseIgnoresLeadingZero(s: string)
    requires |s| > 0
    ensures ParsePort("0" + s) == ParsePort(s)
  {
    if AllDigits(s) {
      ValueIgnoresLeadingZero(s);
    } else {
      var i :| 0 <= i < |s| && !IsDigit(s[i]);
      assert ("0" + s)[i + 1] == s[i];
    }
  }

  /** Any number of leading zeros leaves the value as it is. */
  lemma {:induction false} ValueIgnoresZeros(k: nat, s: string)
    requires AllDigits(s)
    ensures AllDigits(Zeros(k) + s) && Value(Zeros(k) + s) == Value(s)
    decreases k
  {
    if k == 0 {
      assert Zeros(k) + s == s;
    } else {
      ValueIgnoresZeros(k - 1, s);
      ZerosCons(k - 1, s);
      ValueIgnoresLeadingZero(Zeros(k - 1) + s);
    }
  }

  /** A digit string that starts with a nonzero digit denotes a positive
      number. */
  lemma {:induction false} ValuePositive(s: string)
    requires |s| > 0 && AllDigits(s) && s[0] != '0'
    ensures Value(s) > 0
    decreases |s|
  {
    if |s| > 1 {
      ValuePositive(s[..|s| - 1]);
    }
  }

  /** A canonical digit string is the rendering of its value. */
  lemma {:induction false} RenderValue(s: string)
    requires |s| > 0 && AllDigits(s) && (|s| > 1 ==> s[0] != '0')
    ensures Render(Value(s)) == s
    decreases |s|
  {
    var d := DigitValue(s[|s| - 1]);
    assert DigitChar(d) == s[|s| - 1];
    if |s| > 1 {
      var front := s[..|s| - 1];
      ValuePositive(front);
      RenderValue(front);
      var n := Value(s);
      assert n == Value(front) * 10 + d;
      assert n / 10 == Value(front) && n % 10 == d;
      assert front + [s[|s| - 1]] == s;
    }
  }

  /** The zeros in front of a digit string's canonical part: all its
      leading zeros, except the last digit, which stays even when it is a
      zero. */
  function LeadingZeros(s: string): (k: nat)
    requires |s| > 0 && AllDigits(s)
    ensures k < |s|
    decreases |s|
  {
    if |s| == 1 || s[0] != '0' then 0 else 1 + LeadingZeros(s[1..])
  }

  /** Every nonempty digit string is the rendering of its value behind its
      leading zeros. */
  lemma {:induction false} ZerosThenRender(s: string)
    requires |s| > 0 && AllDigits(s)
    ensures s == Zeros(LeadingZeros(s)) + Render(Value(s))
    decreases |s|
  {
    if |s| == 1 || s[0] != '0' {
      RenderValue(s);
      assert Zeros(0) + Render(Value(s)) == Render(Value(s));
    } else {
      var rest := s[1..];
      ZerosThenRender(rest);
      assert s == "0" + rest;
      ValueIgnoresLeadingZero(rest);
      ZerosCons(LeadingZeros(rest), Render(Value(rest)));
    }
  }

  lemma ZerosCons(k: nat, s: string)
    ensures "0" + (Zeros(k) + s) == Zeros(k + 1) + s
  {
    assert Zeros(k + 1) == "0" + Zeros(k);
  }

  /** Parsing undoes rendering behind any number of zeros: the port is
      recovered when it fits in 16 bits, and refused otherwise. */
  lemma ParseZerosRender(k: nat, n: nat)
    ensures ParsePort(Zeros(k) + Render(n)) == if n < 0x1_0000 then Some(n) else None
  {
    ValueIgnoresZeros(k, Render(n));
    ValueOfRender(n);
  }

  /** The arguments that parse to a port are exactly its canonical
      rendering behind some zeros, and only 16-bit values are accepted. */
  lemma ParsePortExactly(s: string, n: nat)
    ensures ParsePort(s) == Some(n) <==> n < 0x1_0000 && exists k: nat :: s == Zeros(k) + Render(n)
  {
    if n < 0x1_0000 && exists k: nat :: s == Zeros(k) + Render(n) {
      var k: nat :| s == Zeros(k) + Render(n);
      ParseZerosRender(k, n);
    }
  }
}

=== FILE: local_ip.dfy ===
/** The router client handle and the resolution of the local address that
    mappings point at (`CreateRouterClient`, `GetLocalIP`). The host's
    network interfaces are an input: a listing that can fail as a whole or
    per interface, as the operating system's calls can. */
module LocalIp {
  import opened Types
  import opened Router

  /** A prefix length of an IPv4 network. */
  type Prefix = n: nat | n <= 32

  /** One address assigned to an interface. Only IPv4 networks can contain
      the router's address here: `V6Net` stands for every IPv6 network,
      including an IPv4-mapped one (`::ffff:a.b.c.d/n`), which Go would
      compare as IPv4 and which is not modelled. Addresses of other kinds
      are skipped. */
  datatype Addr = V4Net(ip: Ipv4, prefix: Prefix) | V6Net | OtherAddr

  /** The addresses of one interface, or the error listing them gave. */
  datatype AddrListing = Addrs(addrs: seq<Addr>) | AddrsFailed(reason: string)

  datatype Iface = Iface(name: string, listing: AddrListing)

  /** The host's interfaces, or the error listing them gave. */
  datatype Interfaces = Listed(ifaces: seq<Iface>) | ListFailed(reason: string)

  /** The handle the commands work with. `localIp` is the cache of the
      resolved local address; `None` stands for the empty string. */
  datatype RouterClient = RouterClient(conn: Conn, localIp: Option<Ipv4>)

  /** A fresh handle around a selected connection, with an empty cache. */
  function CreateRouterClient(conn: Conn): (r: RouterClient)
    ensures r.conn == conn && r.localIp.None?
  {
    RouterClient(conn, None)
  }

  /** The netmask of a prefix length: `prefix` leading one bits, then
      zeros. */
  function Mask(prefix: Prefix): Ipv4
  {
    seq(32, i requires 0 <= i < 32 => i < prefix)
  }

  /** Bitwise and of two addresses. */
  function And(x: Ipv4, y: Ipv4): Ipv4
  {
    seq(32, i requires 0 <= i < 32 => x[i] && y[i])
  }

  /** Network containment: the address agrees with the network on every bit
      the mask keeps. */
  predicate Contains(a: Addr, ip: Ipv4)
  {
    a.V4Net? && And(a.ip, Mask(a.prefix)) == And(ip, Mask(a.prefix))
  }

  /** Containment compares the leading `prefix` bits: an IPv4 network
      contains exactly the addresses that start with the same `prefix` bits
      as its own (so a /0 network contains every address, and a /32 network
      only its own). Networks of other kinds contain nothing. */
  lemma ContainsIffSamePrefix(a: Ipv4, prefix: Prefix, ip: Ipv4)
    ensures Contains(V4Net(a, prefix), ip) <==> a[..prefix] == ip[..prefix]
    ensures !Contains(V6Net, ip) && !Contains(OtherAddr, ip)
  {
    var m := Mask(prefix);
    if Contains(V4Net(a, prefix), ip) {
      forall i | 0 <= i < prefix
        ensures a[..prefix][i] == ip[..prefix][i]
      {
        assert And(a, m)[i] == And(ip, m)[i];
      }
    }
    if a[..prefix] == ip[..prefix] {
      forall i | 0 <= i < 32
        ensures And(a, m)[i] == And(ip, m)[i]
      {
        if i < prefix {
          assert a[..prefix][i] == ip[..prefix][i];
        }
      }
    }
  }

  /** The first address of one interface whose network contains `ip`. */
  function ScanAddrs(addrs: seq<Addr>, ip: Ipv4): (r: Option<Ipv4>)
    ensures r.None? <==> forall l :: 0 <= l < |addrs| ==> !Contains(addrs[l], ip)
    ensures r.Some? ==> exists j :: FirstIn(addrs, ip, j) && r.value == addrs[j].ip
  {
    if |addrs| == 0 then None
    else if Contains(addrs[0], ip) then
      assert FirstIn(addrs, ip, 0);
      Some(addrs[0].ip)
    else
      var r := ScanAddrs(addrs[1..], ip);
      if r.Some? then
        ghost var j :| FirstIn(addrs[1..], ip, j) && r.value == addrs[1..][j].ip;
        assert FirstIn(addrs, ip, j + 1);
        r
      else r
  }

  /** No address before position `j` contains `ip`. */
  predicate NoMatchBefore(addrs: seq<Addr>, ip: Ipv4, j: int)
    requires j <= |addrs|
  {
    forall l :: 0 <= l < j ==> !Contains(addrs[l], ip)
  }

  lemma NoMatchBeforeNext(addrs: seq<Addr>, ip: Ipv4, j: nat)
    requires j < |addrs| && NoMatchBefore(addrs, ip, j) && !Contains(addrs[j], ip)
    ensures NoMatchBefore(addrs, ip, j + 1)
  {
  }

  /** `addrs[j]` is the first address containing `ip`. */
  predicate FirstIn(addrs: seq<Addr>, ip: Ipv4, j: int)
  {
    0 <= j < |addrs| && Contains(addrs[j], ip) && NoMatchBefore(addrs, ip, j)
  }

  /** An interface whose addresses were listed and none contains `ip`. */
  predicate Silent(iface: Iface, ip: Ipv4)
  {
    iface.listing.Addrs? && forall l :: 0 <= l < |iface.listing.addrs| ==> !Contains(iface.listing.addrs[l], ip)
  }

  /** The first `n` interfaces are all silent. */
  predicate SilentUpTo(ifaces: seq<Iface>, ip: Ipv4, n: nat)
    requires n <= |ifaces|
  {
    forall k :: 0 <= k < n ==> Silent(ifaces[k], ip)
  }

  /** The scan stops at address `j` of interface `i`: every interface before
      it is silent, and `j` is the first match within it. */
  predicate FirstMatchAt(ifaces: seq<Iface>, ip: Ipv4, i: int, j: int)
  {
    0 <= i < |ifaces| && SilentUpTo(ifaces, ip, i)
    && ifaces[i].listing.Addrs? && FirstIn(ifaces[i].listing.addrs, ip, j)
  }

  /** The scan over interfaces, then their addresses, in order: the first
      failure to list addresses aborts it, the first containing network
      ends it, and running out of interfaces fails it. */
  function Scan(ifaces: seq<Iface>, ip: Ipv4): (r: Result<Ipv4>)
    ensures r.Err? ==> r.error == LocalIpUnknown || r.error.System?
    ensures r.Ok? ==>
      exists i, j ::
        && 0 <= i < |ifaces| && ifaces[i].listing.Addrs?
        && 0 <= j < |ifaces[i].listing.addrs| && Contains(ifaces[i].listing.addrs[j], ip)
        && r.value == ifaces[i].listing.addrs[j].ip
  {
    if |ifaces| == 0 then Err(LocalIpUnknown)
    else match ifaces[0].listing
      case AddrsFailed(reason) => Err(System(reason))
      case Addrs(addrs) =>
        match ScanAddrs(addrs, ip)
        case Some(a) => Ok(a)
        case None => Scan(ifaces[1..], ip)
  }

  lemma SilentUpToShift(ifaces: seq<Iface>, ip: Ipv4, n: nat)
    requires 0 < |ifaces| && n < |ifaces|
    ensures SilentUpTo(ifaces, ip, n + 1) <==> Silent(ifaces[0], ip) && SilentUpTo(ifaces[1..], ip, n)
  {
  }

  /** `a` is the address at the first match of the scan. */
  ghost predicate FoundFirst(ifaces: seq<Iface>, ip: Ipv4, a: Ipv4)
  {
    exists i, j :: FirstMatchAt(ifaces, ip, i, j) && a == ifaces[i].listing.addrs[j].ip
  }

  /** The scan finds address `a` exactly when `a` is the first match. */
  lemma {:induction false} ScanFindsFirstMatch(ifaces: seq<Iface>, ip: Ipv4, a: Ipv4)
    ensures Scan(ifaces, ip) == Ok(a) <==> FoundFirst(ifaces, ip, a)
    decreases |ifaces|
  {
    if |ifaces| == 0 {
    } else if ifaces[0].listing.AddrsFailed? {
      assert !Silent(ifaces[0], ip);
    } else if ScanAddrs(ifaces[0].listing.addrs, ip).Some? {
      FoundFirstHead(ifaces, ip, a);
    } else {
      assert Silent(ifaces[0], ip);
      ScanFindsFirstMatch(ifaces[1..], ip, a);
      FoundFirstTail(ifaces, ip, a);
    }
  }

  /** When the first interface matches, the first match is in it. */
  lemma FoundFirstHead(ifaces: seq<Iface>, ip: Ipv4, a: Ipv4)
    requires 0 < |ifaces| && ifaces[0].listing.Addrs? && ScanAddrs(ifaces[0].listing.addrs, ip).Some?
    ensures FoundFirst(ifaces, ip, a) <==> a == ScanAddrs(ifaces[0].listing.addrs, ip).value
  {
  }

  /** Past a silent first interface, the first match is that of the rest. */
  lemma FoundFirstTail(ifaces: seq<Iface>, ip: Ipv4, a: Ipv4)
    requires 0 < |ifaces| && Silent(ifaces[0], ip)
    ensures FoundFirst(ifaces, ip, a) <==> FoundFirst(ifaces[1..], ip, a)
  {
  }

  /** The scan fails with an interface's listing error exactly when every
      interface before that one is silent. */
  lemma {:induction false} ScanStopsAtListingError(ifaces: seq<Iface>, ip: Ipv4, reason: string)
    ensures Scan(ifaces, ip) == Err(System(reason)) <==>
      exists i :: 0 <= i < |ifaces| && SilentUpTo(ifaces, ip, i) && ifaces[i].listing == AddrsFailed(reason)
    decreases |ifaces|
  {
    if |ifaces| == 0 {
    } else if ifaces[0].listing.AddrsFailed? {
      assert SilentUpTo(ifaces, ip, 0);
      assert !Silent(ifaces[0], ip);
    } else if ScanAddrs(ifaces[0].listing.addrs, ip).Some? {
      assert !Silent(ifaces[0], ip);
    } else {
      var tail := ifaces[1..];
      ScanStopsAtListingError(tail, ip, reason);
      if Scan(ifaces, ip) == Err(System(reason)) {
        var i :| 0 <= i < |tail| && SilentUpTo(tail, ip, i) && tail[i].listing == AddrsFailed(reason);
        SilentUpToShift(ifaces, ip, i);
      }
      if exists i :: 0 <= i < |ifaces| && SilentUpTo(ifaces, ip, i) && ifaces[i].listing == AddrsFailed(reason) {
        var i :| 0 <= i < |ifaces| && SilentUpTo(ifaces, ip, i) && ifaces[i].listing == AddrsFailed(reason);
        assert i > 0;
        SilentUpToShift(ifaces, ip, i - 1);
        assert tail[i - 1] == ifaces[i];
      }
    }
  }

  /** The scan reports that no local address was found exactly when every
      interface is silent; it never fails in any other way. */
  lemma {:induction false} ScanFindsNothing(ifaces: seq<Iface>, ip: Ipv4)
    ensures Scan(ifaces, ip) == Err(LocalIpUnknown) <==> SilentUpTo(ifaces, ip, |ifaces|)
    ensures Scan(ifaces, ip).Err? ==> Scan(ifaces, ip).error.System? || Scan(ifaces, ip).error == LocalIpUnknown
    decreases |ifaces|
  {
    if |ifaces| == 0 {
    } else if ifaces[0].listing.AddrsFailed? {
      assert !Silent(ifaces[0], ip);
    } else if ScanAddrs(ifaces[0].listing.addrs, ip).Some? {
      assert !Silent(ifaces[0], ip);
    } else {
      ScanFindsNothing(ifaces[1..], ip);
      SilentUpToShift(ifaces, ip, |ifaces| - 1);
    }
  }

  /** Past an interface none of whose addresses matches, the scan goes on
      with the next interface. */
  lemma ScanSkips(ifaces: seq<Iface>, ip: Ipv4, i: nat)
    requires i < |ifaces| && Silent(ifaces[i], ip)
    ensures Scan(ifaces[i..], ip) == Scan(ifaces[i + 1..], ip)
  {
  }

  /** At an interface whose addresses cannot be listed, the scan fails. */
  lemma ScanAborts(ifaces: seq<Iface>, ip: Ipv4, i: nat)
    requires i < |ifaces| && ifaces[i].listing.AddrsFailed?
    ensures Scan(ifaces[i..], ip) == Err(System(ifaces[i].listing.reason))
  {
  }

  /** At the first matching address of an interface, the scan ends. */
  lemma ScanHits(ifaces: seq<Iface>, ip: Ipv4, i: nat, j: nat)
    requires i < |ifaces| && ifaces[i].listing.Addrs? && FirstIn(ifaces[i].listing.addrs, ip, j)
    ensures Scan(ifaces[i..], ip) == Ok(ifaces[i].listing.addrs[j].ip)
  {
  }

  /** The scan as the source writes it: a loop over the interfaces with a
      loop over each one's addresses inside. */
  method ScanInterfaces(ifaces: seq<Iface>, ip: Ipv4) returns (r: Result<Ipv4>)
    ensures r == Scan(ifaces, ip)
  {
    var i := 0;
    while i < |ifaces|
      invariant 0 <= i <= |ifaces|
      invariant Scan(ifaces, ip) == Scan(ifaces[i..], ip)
    {
      match ifaces[i].listing {
        case AddrsFailed(reason) =>
          ScanAborts(ifaces, ip, i);
          return Err(System(reason));
        case Addrs(addrs) =>
          var j := 0;
          while j < |addrs|
            invariant 0 <= j <= |addrs|
            invariant NoMatchBefore(addrs, ip, j)
          {
            if Contains(addrs[j], ip) {
              ScanHits(ifaces, ip, i, j);
              return Ok(addrs[j].ip);
            }
            NoMatchBeforeNext(addrs, ip, j);
            j := j + 1;
          }
          ScanSkips(ifaces, ip, i);
      }
      i := i + 1;
    }
    return Err(LocalIpUnknown);
  }

  /** `GetLocalIP`: the cached address if there is one; otherwise the
      router's address must be an IP literal, the interfaces must list,
      and the scan decides. Nothing here stores into the cache. */
  function GetLocalIp(r: RouterClient, net: Interfaces): (res: Result<Ipv4>)
    ensures r.localIp.Some? ==> res == Ok(r.localIp.value)
    ensures r.localIp.None? && r.conn.device.controlHost.None? ==> res == Err(RouterIpUnknown)
    ensures r.localIp.None? && r.conn.device.controlHost.Some? && net.ListFailed? ==>
      res == Err(System(net.reason))
    ensures r.localIp.None? && res.Ok? ==>
      r.conn.device.controlHost.Some? && net.Listed? &&
      exists i, j :: FirstMatchAt(net.ifaces, r.conn.device.controlHost.value, i, j)
        && res.value == net.ifaces[i].listing.addrs[j].ip
  {
    if r.localIp.Some? then Ok(r.localIp.value)
    else match r.conn.device.controlHost
      case None => Err(RouterIpUnknown)
      case Some(ip) =>
        match net
        case ListFailed(reason) => Err(System(reason))
        case Listed(ifaces) =>
          var res := Scan(ifaces, ip);
          if res.Ok? then ScanFindsFirstMatch(ifaces, ip, res.value); res else res
  }

  /** The cache is never filled: on a handle made by `CreateRouterClient`
      every resolution lists the interfaces again, and two resolutions
      against the same interfaces agree. */
  lemma FreshHandleAlwaysResolves(conn: Conn, net: Interfaces)
    requires conn.device.controlHost.Some? && net.Listed?
    ensures GetLocalIp(CreateRouterClient(conn), net) == Scan(net.ifaces, conn.device.controlHost.value)
  {
  }
}

=== FILE: mapping.dfy ===
/** The port mapping operations of the router client (`Forward`, `Clear`).
    The gateway is an oracle: it answers each request given every request
    issued so far in the run, the request being answered last. An operation
    returns its outcome together with the requests it issued. */
module Mapping {
  import opened Types
  import opened LocalIp

  datatype Protocol = Tcp | Udp
  {
    /** The protocol name sent to the gateway. */
    function Name(): string
    {
      match this
      case Tcp => "TCP"
      case Udp => "UDP"
    }
  }

  /** A request to the gateway's WAN connection service. */
  datatype Call =
    | AddPortMapping(remoteHost: string, externalPort: Port, protocol: Protocol, internalPort: Port,
                     internalClient: Ipv4, enabled: bool, description: string, leaseDuration: nat)
    | DeletePortMapping(remoteHost: string, externalPort: Port, protocol: Protocol)
    | GetExternalIPAddress

  /** The gateway's answer: the request's output (the external address, for
      `GetExternalIPAddress`), or a fault. */
  datatype Reply = Answer(output: string) | Fault(reason: string)

  /** The gateway's behaviour: the answer to the last request of a history. */
  type Gateway = seq<Call> -> Reply

  /** What an operation did: its outcome and the requests it issued. */
  datatype Op = Op(outcome: Outcome, issued: seq<Call>)

  /** Every one of `calls`, issued in order after `past`, was answered. */
  ghost predicate Answered(gw: Gateway, past: seq<Call>, calls: seq<Call>)
    decreases |calls|
  {
    |calls| == 0 || (gw(past + [calls[0]]).Answer? && Answered(gw, past + [calls[0]], calls[1..]))
  }

  /** Reference semantics of a fail-fast sequence without rollback: issue
      the requests in order and stop at the first fault, which becomes the
      outcome. */
  function FailFast(calls: seq<Call>, gw: Gateway, past: seq<Call>): (o: Op)
    ensures FailFastSpec(calls, gw, past, o)
    decreases |calls|
  {
    if |calls| == 0 then Op(Pass, [])
    else match gw(past + [calls[0]])
      case Fault(reason) => Op(Fail(RemoteFault(reason)), [calls[0]])
      case Answer(_) =>
        var rest := FailFast(calls[1..], gw, past + [calls[0]]);
        FailFastCons(calls, gw, past, rest);
        Op(rest.outcome, [calls[0]] + rest.issued)
  }

  /** What a fail-fast run `o` of `calls` after `past` did: it issued a
      prefix of the requests; it passed exactly when it issued all of them
      and all were answered; and a failure is the fault of the last request
      it issued, every earlier one having been answered. */
  ghost predicate FailFastSpec(calls: seq<Call>, gw: Gateway, past: seq<Call>, o: Op)
  {
    && o.issued <= calls
    && (o.outcome.Pass? <==> o.issued == calls && Answered(gw, past, calls))
    && (o.outcome.Fail? ==>
          |o.issued| > 0 && Answered(gw, past, o.issued[..|o.issued| - 1])
          && gw(past + o.issued).Fault? && o.outcome.error == RemoteFault(gw(past + o.issued).reason))
  }

  lemma FailFastCons(calls: seq<Call>, gw: Gateway, past: seq<Call>, rest: Op)
    requires |calls| > 0 && gw(past + [calls[0]]).Answer?
    requires FailFastSpec(calls[1..], gw, past + [calls[0]], rest)
    ensures FailFastSpec(calls, gw, past, Op(rest.outcome, [calls[0]] + rest.issued))
  {
    var issued := [calls[0]] + rest.issued;
    assert issued[0] == calls[0] && issued[1..] == rest.issued;
    assert [calls[0]] + calls[1..] == calls;
    if rest.outcome.Fail? {
      assert issued[..|issued| - 1][0] == calls[0];
      assert issued[..|issued| - 1][1..] == rest.issued[..|rest.issued| - 1];
      assert past + issued == past + [calls[0]] + rest.issued;
    }
  }

  /** The mapping `Forward` requests for one protocol. */
  function MappingFor(port: Port, protocol: Protocol, client: Ipv4, desc: string): Call
  {
    AddPortMapping("", port, protocol, port, client, true, desc, 0)
  }

  /** `Forward`: resolve the local address, then map `port` for TCP and, only
      if that was accepted, for UDP. A fault ends the operation; nothing that
      was already mapped is taken back. */
  function Forward(r: RouterClient, port: Port, desc: string, net: Interfaces, gw: Gateway, past: seq<Call>): (o: Op)
    ensures GetLocalIp(r, net).Err? ==> o == Op(Fail(GetLocalIp(r, net).error), [])
    ensures GetLocalIp(r, net).Ok? ==> 1 <= |o.issued| <= 2
    ensures forall c :: c in o.issued ==>
      c.AddPortMapping? && c.remoteHost == "" && c.externalPort == port && c.internalPort == port
      && c.internalClient == GetLocalIp(r, net).value && c.enabled && c.description == desc && c.leaseDuration == 0
    ensures |o.issued| >= 1 ==> o.issued[0].protocol == Tcp
    ensures |o.issued| == 2 ==> o.issued[1].protocol == Udp
    ensures |o.issued| == 1 ==>
      o.outcome.Fail? && gw(past + o.issued).Fault? && o.outcome.error == RemoteFault(gw(past + o.issued).reason)
    ensures o.outcome.Pass? <==> |o.issued| == 2 && gw(past + o.issued[..1]).Answer? && gw(past + o.issued).Answer?
  {
    match GetLocalIp(r, net)
    case Err(e) => Op(Fail(e), [])
    case Ok(lip) =>
      var tcp := MappingFor(port, Tcp, lip, desc);
      match gw(past + [tcp])
      case Fault(reason) => Op(Fail(RemoteFault(reason)), [tcp])
      case Answer(_) =>
        var udp := MappingFor(port, Udp, lip, desc);
        assert [tcp, udp][..1] == [tcp];
        match gw(past + [tcp, udp])
        case Fault(reason) => Op(Fail(RemoteFault(reason)), [tcp, udp])
        case Answer(_) => Op(Pass, [tcp, udp])
  }

  /** `Clear`: unmap `port` for TCP and then UDP, stopping at the first
      fault. The local address is not needed for that. */
  function Clear(port: Port, gw: Gateway, past: seq<Call>): (o: Op)
    ensures 1 <= |o.issued| <= 2
    ensures forall c :: c in o.issued ==> c.DeletePortMapping? && c.remoteHost == "" && c.externalPort == port
    ensures o.issued[0].protocol == Tcp
    ensures |o.issued| == 2 ==> o.issued[1].protocol == Udp
    ensures |o.issued| == 1 ==>
      o.outcome.Fail? && gw(past + o.issued).Fault? && o.outcome.error == RemoteFault(gw(past + o.issued).reason)
    ensures o.outcome.Pass? <==> |o.issued| == 2 && gw(past + o.issued[..1]).Answer? && gw(past + o.issued).Answer?
  {
    var tcp := DeletePortMapping("", port, Tcp);
    match gw(past + [tcp])
    case Fault(reason) => Op(Fail(RemoteFault(reason)), [tcp])
    case Answer(_) =>
      var udp := DeletePortMapping("", port, Udp);
      assert [tcp, udp][..1] == [tcp];
      match gw(past + [tcp, udp])
      case Fault(reason) => Op(Fail(RemoteFault(reason)), [tcp, udp])
      case Answer(_) => Op(Pass, [tcp, udp])
  }

  /** Once the local address is known, `Forward` is the fail-fast sequence
      of the TCP and the UDP mapping. */
  lemma ForwardIsFailFast(r: RouterClient, port: Port, desc: string, net: Interfaces, gw: Gateway, past: seq<Call>)
    requires GetLocalIp(r, net).Ok?
    ensures var lip := GetLocalIp(r, net).value;
      Forward(r, port, desc, net, gw, past)
        == FailFast([MappingFor(port, Tcp, lip, desc), MappingFor(port, Udp, lip, desc)], gw, past)
  {
    var lip := GetLocalIp(r, net).value;
    var calls := [MappingFor(port, Tcp, lip, desc), MappingFor(port, Udp, lip, desc)];
    assert calls[1..][1..] == [];
    assert past + [calls[0]] + [calls[1]] == past + calls;
  }

  /** `Clear` is the fail-fast sequence of the TCP and the UDP unmapping. */
  lemma ClearIsFailFast(port: Port, gw: Gateway, past: seq<Call>)
    ensures Clear(port, gw, past)
      == FailFast([DeletePortMapping("", port, Tcp), DeletePortMapping("", port, Udp)], gw, past)
  {
    var calls := [DeletePortMapping("", port, Tcp), DeletePortMapping("", port, Udp)];
    assert calls[1..][1..] == [];
    assert past + [calls[0]] + [calls[1]] == past + calls;
  }

  /** A gateway's mapping table, keyed by external port and protocol. */
  datatype Rule = Rule(client: Ipv4, internalPort: Port, description: string, enabled: bool, lease: nat)

  type Table = map<(Port, Protocol), Rule>

  /** How an accepted request changes the table of a gateway that behaves
      as the service describes. */
  function Apply(t: Table, c: Call): Table
  {
    match c
    case AddPortMapping(_, ext, proto, internal, client, enabled, desc, lease) =>
      t[(ext, proto) := Rule(client, internal, desc, enabled, lease)]
    case DeletePortMapping(_, ext, proto) => t - {(ext, proto)}
    case GetExternalIPAddress => t
  }

  function ApplyAll(t: Table, calls: seq<Call>): Table
    decreases |calls|
  {
    if |calls| == 0 then t else ApplyAll(Apply(t, calls[0]), calls[1..])
  }

  lemma ApplyAllPair(t: Table, calls: seq<Call>)
    requires |calls| == 2
    ensures ApplyAll(t, calls) == Apply(Apply(t, calls[0]), calls[1])
  {
    var t1 := Apply(t, calls[0]);
    var t2 := Apply(t1, calls[1]);
    assert calls[1..][1..] == [];
    assert ApplyAll(t2, []) == t2;
    assert ApplyAll(t1, calls[1..]) == ApplyAll(t2, calls[1..][1..]);
  }

  /** A successful `Forward` followed by a successful `Clear` of the same
      port leaves such a gateway's table as it was, when the port was not
      mapped before. */
  lemma ClearUndoesForward(t: Table, r: RouterClient, port: Port, desc: string, net: Interfaces, gw: Gateway, past: seq<Call>)
    requires (port, Tcp) !in t && (port, Udp) !in t
    requires Forward(r, port, desc, net, gw, past).outcome.Pass?
    requires Clear(port, gw, past + Forward(r, port, desc, net, gw, past).issued).outcome.Pass?
    ensures var f := Forward(r, port, desc, net, gw, past);
      ApplyAll(ApplyAll(t, f.issued), Clear(port, gw, past + f.issued).issued) == t
  {
    var f := Forward(r, port, desc, net, gw, past);
    var c := Clear(port, gw, past + f.issued);
    ApplyAllPair(t, f.issued);
    var t2 := ApplyAll(t, f.issued);
    ApplyAllPair(t2, c.issued);
    assert t2.Keys == t.Keys + {(port, Tcp), (port, Udp)};
    assert ApplyAll(t2, c.issued) == t2 - {(port, Tcp)} - {(port, Udp)};
    assert forall k :: k in t ==> k in t2 && t2[k] == t[k];
  }

  /** No rollback: when the UDP mapping is refused, the accepted TCP mapping
      stays on such a gateway. */
  lemma ForwardLeavesTcpOnUdpFault(t: Table, r: RouterClient, port: Port, desc: string, net: Interfaces, gw: Gateway, past: seq<Call>)
    requires Forward(r, port, desc, net, gw, past).outcome.Fail?
    requires |Forward(r, port, desc, net, gw, past).issued| == 2
    ensures var f := Forward(r, port, desc, net, gw, past);
      var t1 := ApplyAll(t, f.issued[..1]);
      (port, Tcp) in t1 && t1[(port, Tcp)] == Rule(GetLocalIp(r, net).value, port, desc, true, 0)
      && forall c :: c in f.issued ==> !c.DeletePortMapping?
  {
  }
}

=== FILE: router.dfy ===
/** Discovery and selection of the gateway's control endpoint
    (`PickRouterClient`). Three discovery tasks, one per WAN connection
    service variant, run side by side; their results are joined, and one
    device is picked by a fixed priority among the variants. */
module Router {
  import opened Types

  /** The three UPnP WAN connection service variants that are probed. */
  datatype Variant = WanIp2 | WanIp1 | WanPpp1

  /** A device found by discovery. `controlHost` is what remains of the host
      of its root device's base URL after the port is split off and the rest
      is parsed as an IP literal: `None` when that is not an IPv4 address
      (which includes a base URL without a port, since splitting it then
      yields an empty host). */
  datatype Device = Device(id: nat, controlHost: Option<Ipv4>)

  /** The selected control connection: a device together with the service
      variant through which it is driven. */
  datatype Conn = Conn(variant: Variant, device: Device)

  /** What one discovery task produced. */
  datatype Task = Found(devices: seq<Device>) | Failed(reason: string)

  /** The three discovery tasks, as they finished. */
  datatype Probe = Probe(ip1: Task, ip2: Task, ppp1: Task)

  /** The joined discovery result: the device lists of all three variants. */
  datatype Candidates = Candidates(ip2: seq<Device>, ip1: seq<Device>, ppp1: seq<Device>)

  function TaskOf(p: Probe, v: Variant): Task
  {
    match v
    case WanIp2 => p.ip2
    case WanIp1 => p.ip1
    case WanPpp1 => p.ppp1
  }

  /** The order in which the three tasks finished: each variant exactly once. */
  predicate IsCompletionOrder(order: seq<Variant>)
  {
    |order| == 3 && WanIp2 in order && WanIp1 in order && WanPpp1 in order
  }

  /** The reason of the first task, in `order`, that failed. */
  function FirstFailure(p: Probe, order: seq<Variant>): (r: Option<string>)
    ensures r.None? <==> forall i :: 0 <= i < |order| ==> TaskOf(p, order[i]).Found?
    ensures r.Some? ==>
      exists i :: 0 <= i < |order| && TaskOf(p, order[i]) == Failed(r.value)
        && forall k :: 0 <= k < i ==> TaskOf(p, order[k]).Found?
  {
    if |order| == 0 then None
    else match TaskOf(p, order[0])
      case Failed(reason) => Some(reason)
      case Found(_) =>
        var r := FirstFailure(p, order[1..]);
        if r.Some? then
          ghost var i :| 0 <= i < |order[1..]| && TaskOf(p, order[1..][i]) == Failed(r.value)
            && forall k :: 0 <= k < i ==> TaskOf(p, order[1..][k]).Found?;
          assert TaskOf(p, order[i + 1]) == Failed(r.value);
          r
        else r
  }

  /** Waiting for the task group: the error of the first task to fail, or
      every list when none failed. */
  function WaitTasks(p: Probe, order: seq<Variant>): (r: Result<Candidates>)
    requires IsCompletionOrder(order)
    ensures r.Ok? <==> p.ip2.Found? && p.ip1.Found? && p.ppp1.Found?
    ensures r.Ok? ==> r.value == Candidates(p.ip2.devices, p.ip1.devices, p.ppp1.devices)
    ensures r.Err? ==> exists v :: TaskOf(p, v).Failed? && r.error == Discovery(TaskOf(p, v).reason)
  {
    match FirstFailure(p, order)
    case Some(reason) => Err(Discovery(reason))
    case None =>
      assert TaskOf(p, WanIp2).Found? && TaskOf(p, WanIp1).Found? && TaskOf(p, WanPpp1).Found? by {
        forall v ensures TaskOf(p, v).Found? {
          var i :| 0 <= i < |order| && order[i] == v;
        }
      }
      Ok(Candidates(p.ip2.devices, p.ip1.devices, p.ppp1.devices))
  }

  /** The selection switch: the sole device of the first variant, in the
      order v2, v1, PPP, whose list has exactly one element. A list with
      two or more devices does not stop the search: the next variant is
      still tried. */
  function Select(c: Candidates): (r: Result<Conn>)
    ensures |c.ip2| == 1 ==> r == Ok(Conn(WanIp2, c.ip2[0]))
    ensures |c.ip2| != 1 && |c.ip1| == 1 ==> r == Ok(Conn(WanIp1, c.ip1[0]))
    ensures |c.ip2| != 1 && |c.ip1| != 1 && |c.ppp1| == 1 ==> r == Ok(Conn(WanPpp1, c.ppp1[0]))
    ensures r.Err? <==> |c.ip2| != 1 && |c.ip1| != 1 && |c.ppp1| != 1
    ensures r.Err? ==> r.error == NoUniqueService
  {
    if |c.ip2| == 1 then Ok(Conn(WanIp2, c.ip2[0]))
    else if |c.ip1| == 1 then Ok(Conn(WanIp1, c.ip1[0]))
    else if |c.ppp1| == 1 then Ok(Conn(WanPpp1, c.ppp1[0]))
    else Err(NoUniqueService)
  }

  /** The candidate lists ranked by priority. */
  function Ranked(c: Candidates): seq<(Variant, seq<Device>)>
  {
    [(WanIp2, c.ip2), (WanIp1, c.ip1), (WanPpp1, c.ppp1)]
  }

  /** Reference policy over any ranking: the first list of length one. */
  function FirstSingleton(ranked: seq<(Variant, seq<Device>)>): (r: Option<Conn>)
    ensures r.None? <==> forall k :: 0 <= k < |ranked| ==> |ranked[k].1| != 1
    ensures r.Some? ==>
      exists k :: 0 <= k < |ranked| && ranked[k].1 == [r.value.device] && ranked[k].0 == r.value.variant
        && forall l :: 0 <= l < k ==> |ranked[l].1| != 1
  {
    if |ranked| == 0 then None
    else if |ranked[0].1| == 1 then Some(Conn(ranked[0].0, ranked[0].1[0]))
    else
      var r := FirstSingleton(ranked[1..]);
      if r.Some? then
        ghost var k :| 0 <= k < |ranked[1..]| && ranked[1..][k].1 == [r.value.device]
          && ranked[1..][k].0 == r.value.variant
          && forall l :: 0 <= l < k ==> |ranked[1..][l].1| != 1;
        assert ranked[k + 1].1 == [r.value.device];
        r
      else r
  }

  /** The selection switch is the reference policy applied to the ranking
      v2, v1, PPP. */
  lemma SelectIsFirstSingleton(c: Candidates)
    ensures Select(c).Ok? <==> FirstSingleton(Ranked(c)).Some?
    ensures Select(c).Ok? ==> Select(c).value == FirstSingleton(Ranked(c)).value
  {
    var rk := Ranked(c);
    var tail1 := [(WanIp1, c.ip1), (WanPpp1, c.ppp1)];
    var tail2 := [(WanPpp1, c.ppp1)];
    assert rk[1..] == tail1 && tail1[1..] == tail2 && tail2[1..] == [];
    assert FirstSingleton(tail2) == if |c.ppp1| == 1 then Some(Conn(WanPpp1, c.ppp1[0])) else None;
    assert FirstSingleton(tail1) == if |c.ip1| == 1 then Some(Conn(WanIp1, c.ip1[0])) else FirstSingleton(tail2);
  }

  /** Selection looks only at how many devices each variant found and, for
      the variant it picks, at that sole device. */
  lemma SelectDependsOnCounts(c: Candidates, d: Candidates)
    requires |c.ip2| == |d.ip2| && |c.ip1| == |d.ip1| && |c.ppp1| == |d.ppp1|
    ensures Select(c).Ok? <==> Select(d).Ok?
    ensures Select(c).Ok? ==> Select(c).value.variant == Select(d).value.variant
  {
  }

  /** `PickRouterClient`: join the discovery tasks, then select. */
  function PickRouterClient(p: Probe, order: seq<Variant>): (r: Result<Conn>)
    requires IsCompletionOrder(order)
    ensures (p.ip2.Failed? || p.ip1.Failed? || p.ppp1.Failed?) ==> r.Err? && r.error.Discovery?
    ensures (p.ip2.Failed? || p.ip1.Failed? || p.ppp1.Failed?) ==>
      exists v :: TaskOf(p, v).Failed? && r.error.reason == TaskOf(p, v).reason
    ensures p.ip2.Found? && p.ip1.Found? && p.ppp1.Found? ==>
      r == Select(Candidates(p.ip2.devices, p.ip1.devices, p.ppp1.devices))
  {
    match WaitTasks(p, order)
    case Err(e) => Err(e)
    case Ok(c) => Select(c)
  }
}

=== FILE: types.dfy ===
/** Value types shared by every part of the model: ports, IPv4 addresses,
    the error taxonomy of the tool, and the failure-carrying wrappers that
    stand in for Go's `(value, error)` return pairs. */
module Types {

  /** A TCP/UDP port, Go's `uint16`. */
  type Port = n: nat | n < 0x1_0000

  /** An IPv4 address as its 32 bits in network order, most significant
      bit first. */
  type Ipv4 = bits: seq<bool> | |bits| == 32 witness seq(32, _ => false)

  datatype Option<T> = None | Some(value: T)

  /** Every error the tool can surface. The `reason` strings are the texts
      produced by code outside the model (the operating system, the UPnP
      library, the gateway's SOAP faults). */
  datatype Error =
    | Discovery(reason: string)   // a discovery task of the UPnP library failed
    | NoUniqueService             // "multiple or no services found"
    | RouterIpUnknown             // "couldn't determine router's internal ip"
    | System(reason: string)      // listing interfaces or their addresses failed
    | LocalIpUnknown              // "couldn't determine internal ip"
    | RemoteFault(reason: string) // the gateway refused a request

  /** A value, or the error that replaced it. */
  datatype Result<T> = Ok(value: T) | Err(error: Error)

  /** The result of an operation that returns only an error. */
  datatype Outcome = Pass | Fail(error: Error)
}

=== FILE: words.dfy ===
/** Joining command-line words into one description with single spaces
    (`strings.Join(words, " ")`), and the split that undoes it. */
module Words {

  /** The words separated by single spaces; the empty list joins to "". */
  function Join(words: seq<string>): (r: string)
    ensures |words| == 0 ==> r == ""
    ensures |words| == 1 ==> r == words[0]
    ensures |words| > 0 ==> |words[0]| <= |r| && r[..|words[0]|] == words[0]
    ensures NoSpaces(words) ==> (' ' in r <==> |words| > 1)
  {
    if |words| == 0 then ""
    else if |words| == 1 then words[0]
    else words[0] + " " + Join(words[1..])
  }

  /** Joining two nonempty lists is joining each and putting one space
      between them; with the empty-list and single-word cases this fixes
      `Join` for every list, spaces inside words included. */
  lemma {:induction false} JoinAppend(a: seq<string>, b: seq<string>)
    requires |a| > 0 && |b| > 0
    ensures Join(a + b) == Join(a) + " " + Join(b)
    decreases |a|
  {
    if |a| > 1 {
      assert (a + b)[1..] == a[1..] + b;
      JoinAppend(a[1..], b);
    } else {
      assert (a + b)[1..] == b;
    }
  }

  /** The position of the first space of a string that has one. */
  function FirstSpace(s: string): (i: nat)
    requires ' ' in s
    ensures i < |s| && s[i] == ' '
    ensures forall k :: 0 <= k < i ==> s[k] != ' '
  {
    if s[0] == ' ' then 0
    else
      var i := FirstSpace(s[1..]);
      i + 1
  }

  /** The pieces of a string between its spaces. */
  function Split(s: string): (pieces: seq<string>)
    ensures |pieces| > 0
    decreases |s|
  {
    if ' ' !in s then [s]
    else
      var i := FirstSpace(s);
      [s[..i]] + Split(s[i + 1..])
  }

  predicate NoSpaces(words: seq<string>)
  {
    forall k :: 0 <= k < |words| ==> ' ' !in words[k]
  }

  /** Round trip: words without spaces are recovered from their join. */
  lemma {:induction false} SplitJoin(words: seq<string>)
    requires |words| > 0 && NoSpaces(words)
    ensures Split(Join(words)) == words
    decreases |words|
  {
    if |words| > 1 {
      var w := words[0];
      var rest := Join(words[1..]);
      var s := w + " " + rest;
      assert s[..|w|] == w && s[|w|] == ' ';
      assert ' ' in s;
      var i := FirstSpace(s);
      assert forall k :: 0 <= k < |w| ==> s[k] == w[k] && s[k] != ' ';
      assert s[i + 1..] == rest;
      SplitJoin(words[1..]);
      assert [w] + words[1..] == words;
    }
  }
}
